=== FILE: README.md ===
# CRProductos partial-update engine, modelled in Dafny

CRProductos is a small Go HTTP service with CRUD operations on one `product`
table. The table has the columns `id`, `name`, `quantity`, `unit` and a JSON
`stores` map from store name to price. The one piece of real decision logic
is the PATCH statement builder, `PatchProduct`. It appears twice, with
identical code: in `db/db.go` and as a method in
`internal/repository/product_repository.go`. The builder uses reflection to
walk the fields of the sparse body `ProductResponse` in declaration order:

- A pointer field is kept when it is non-nil, even if it points at `0` or `""`.
- The plain field `Id` is kept when it is non-zero.
- Each kept field becomes `column = $k`, with `$1, $2, ...` numbered
  consecutively. The column name comes from `utils.FieldToColumnName`.
- The product id is bound to the final placeholder, `$n+1`, in the WHERE
  clause.
- A body with nothing to set is refused with `No fields for update`.

This project models that builder. It also models:

- the two fixed statements, the full replace `UpdateProduct` and the store
  merge `PatchStore`;
- the conversion `Product.ToJSON` from nullable columns to optional fields;
- the transaction handling around all three operations.

Modules, one per concern of the source:

- `Wrappers` (`wrappers.dfy`): `Option`. A `None` stands for a nil pointer.
- `Text` (`text.dfy`): the parts of `strings` and `fmt` that the builder uses.
  These are `strings.Split` and `strings.Join` with round-trip lemmas, and
  `%d` rendering with a lemma that reads it back.
- `Models` (`models.dfy`): the `Product` row and the `ProductResponse` body,
  `ToJSON`, and the reflective view of the body (`FieldValues`,
  `ResponseFields`).
- `Utils` (`utils.dfy`): `FieldToColumnName`.
- `Patch` (`patch.dfy`): the projection. This is the sequence of
  `(column, placeholder index, value)` clauses, plus lemmas on order,
  numbering, completeness and the empty case.
- `Builder` (`builder.dfy`): the loop that builds the SET list, written as
  a method whose loop invariants tie it to the projection. Also the
  statement text and its arguments.
- `Db` (`db.dfy`): `PatchProduct`, `UpdateProduct` and `PatchStore` as
  runs. The database's answers are an input: whether `Begin`, `Exec` and
  `Commit` fail, and which row the read-back finds. A run records the
  transaction calls made and what the Go function returns. `Fatal` means
  `log.Fatal` ended the process.
- `Store` (`store.dfy`): what the issued statements do to the addressed row.
  A SET list overwrites columns and a NULL argument clears a column. The
  `stores || $1::jsonb` merge is a shallow map union where the patch wins.
  These lemmas relate each operation to its meaning: a patch overlays the
  supplied fields, a replace installs the body, and a merge keeps omitted
  keys. For whole runs, the read-back's answer is not chosen freely. It is
  computed from the row as the executed statement left it, by selecting on
  the path id.

The code under `internal/` imports `internal/models` and `internal/utils`,
which are not part of this model. They are assumed to match
`models/models.go` and `utils/utils.go`. The two copies of each operation are
modelled once, and the table below cites both files.

Some behaviours of the code are modelled as written:

- A PATCH body with a non-zero `id` also rewrites the row's `id` column (see
  `Store.PatchEffect`), even though ids are meant to be immutable. When that
  id differs from the path id, the read-back by the path id finds no row.
  The caller then gets the zero product and no error, although the row was
  changed (`Store.PatchMovingIdReturnsZeroProduct`).
- When the id matches no row, a patch commits and reports success with the
  zero product (`Db.MissingRowLooksLikeSuccess`). It does not raise a
  not-found error.
- A store merge into a product whose `stores` column is NULL leaves it NULL
  (`Store.MergeIntoNullIsNull`), because `||` returns NULL when either
  operand is NULL.

## Model

| member | source | states |
|---|---|---|
| `Utils.FieldToColumnName` | utils/utils.go:8-14 | An empty tag gives the Go field name. A non-empty tag gives a comma-free prefix of the tag that is the whole tag or is followed by a comma. |
| `Utils.ColumnIsTagName` | utils/utils.go:13 | For a tagged field, the column is the only string that is the tag's text before its first comma. |
| `Utils.PlainTagIsColumn` | utils/utils.go:13 | A non-empty tag without a comma is its own column, so `"name"` gives `name`. |
| `Utils.LeadingCommaGivesEmptyColumn` | utils/utils.go:10-13 | A tag that starts with a comma, such as `",omitempty"`, gives the empty column, not the field name. |
| `Utils.ResponseColumns` | models/models.go:34-40 | The `ProductResponse` tags are comma-free, and the columns in declaration order are id, name, quantity, unit, stores. |
| `Text.Split` | utils/utils.go:13 | `strings.Split` returns at least one piece and no piece contains the separator. The first piece is the prefix before the first separator. A string without the separator splits to itself. |
| `Text.JoinSplit` | utils/utils.go:13 | Joining the pieces of a split with the separator gives back the original tag. |
| `Text.SplitJoin` | utils/utils.go:13 | Splitting a join of separator-free pieces gives back the pieces. |
| `Text.SplitAppend` | utils/utils.go:13 | A separator-free piece followed by the separator splits off as the first piece, ahead of the split of the rest. |
| `Text.DecimalRoundTrip` | db/db.go:159 | The `%d` rendering of a placeholder number reads back as that number. |
| `Builder.RenderClause` | db/db.go:159 | A clause's text is its column, then ` = $`, then digits that read back as the clause's placeholder number. |
| `Builder.WherePlaceholder` | db/db.go:181 | The WHERE placeholder is `$` followed by digits that read back as one past the number of SET clauses. |
| `Builder.PatchQuery` | db/db.go:181 | The statement text is `Update product set `, then the rendered clauses joined by `, `, then ` where id=` and the WHERE placeholder. |
| `Builder.RenderedCommaFree` | db/db.go:159 | A rendered clause holds a comma only if its column does. |
| `Builder.SetListReadsBack` | db/db.go:181 | When no column holds a comma, splitting the SET part on `,` gives back the rendered clauses in order, each after the first behind the space that `", "` puts there. |
| `Text.JoinCommaSpace` | db/db.go:181 | Joining with `", "` is the same as joining with `,` after putting a space in front of every piece but the first. |
| `Models.ToJSON` | models/models.go:42-63 | The id is preserved. `name`, `quantity` and `unit` are present exactly when their `Valid` flag is set, and then carry the wrapped value unchanged. `Stores` passes through, nil included. |
| `Models.ToJSONAfterFromJSON` | models/models.go:42-63 | Every body survives storing into nullable columns and converting back with `ToJSON`. |
| `Models.FromJSONAfterToJSON` | models/models.go:42-63 | `ToJSON` loses only the payload of invalid wrappers, so it can be inverted exactly on rows scanned from NULLs. |
| `Models.FieldValues` | models/models.go:34-40 | The body has five fields in declaration order: a plain `Id`, then four pointers. |
| `Patch.IsZero` | db/db.go:165 | A plain value counts as zero exactly when it equals its kind's zero value (`0`, `""`, the all-zero float bits). A non-nil map is never zero. |
| `Patch.Supplied` | db/db.go:152-174 | A pointer field contributes its target exactly when non-nil. A plain field contributes exactly when it is not the zero value. |
| `Patch.Project` | db/db.go:143-176 | The clauses number their placeholders `$1..$n` with no gap, and there are at most as many clauses as fields. |
| `Patch.ProjectionFollowsDeclarationOrder` | internal/repository/product_repository.go:126-154 | Clause `k` carries the column and the value of the `k`-th contributing field. The contributing fields are listed in increasing declaration order, and every contributing field is listed. |
| `Patch.EmptyProjection` | db/db.go:177-180 | The projection is empty exactly when no field contributes. |
| `Patch.BodyProjection` | db/db.go:148-176 | For a product body, `id` is set exactly when it is non-zero, and each other field exactly when its pointer is non-nil (zero values included). The order is id, name, quantity, unit, stores. |
| `Builder.BuildSetList` | internal/repository/product_repository.go:119-154 | The loop builds exactly the rendered clauses and arguments of the projection, and its counter ends at `n+1`. |
| `Builder.PatchArgs` | db/db.go:181-182 | There are `n+1` arguments. Placeholder `$k` of each clause binds that clause's value, and the last argument is the id. |
| `Builder.PlaceholdersDistinct` | internal/repository/product_repository.go:159 | The SET placeholders are pairwise distinct, and each differs from the WHERE placeholder `$n+1`. |
| `Db.PatchStatement` | db/db.go:181-183 | The executed statement's text is `PatchQuery` of the clauses. It has `n+1` arguments with the id last, and each clause's placeholder binds its value. |
| `Db.SelectById` | db/db.go:189 | The read-back is the fixed select by id, with the path id as its one argument. |
| `Db.ReadBack` | db/db.go:189 | The read-back's scan error is ignored, so a missing row yields the zero product. |
| `Db.ExecuteUpdate` | db/db.go:183-195 | After the UPDATE, a failed `Exec` gives `[Begin, Exec, Rollback]` with the zero product and the exec error. A successful one gives `[Begin, Exec, QueryRow, Commit]`, with the read-back product and exactly the commit's error, if any. |
| `Db.PatchRun` | db/db.go:136-196 | For any built statement: `Begin` failure is fatal, and an empty projection returns "No fields for update". In both cases `Begin` is the only call. Otherwise the statement is the only `Exec`, at position 1, followed by the exec or commit handling. |
| `Db.PatchProduct` | db/db.go:136-196 | `Begin` failure is fatal. An empty projection returns "No fields for update", and `Begin` is then the only call, so the transaction is neither committed nor rolled back. Otherwise exactly one UPDATE runs, and it is the projection's statement. If it fails, the transaction is rolled back and the error is returned with the zero product. If it succeeds, the row is read back and the transaction is committed. The read-back product is returned with exactly the commit's error, or none. |
| `Db.EmptyBody` | internal/repository/product_repository.go:155-158 | The projection is empty exactly when the id is zero and every pointer is nil. |
| `Db.PatchProductSettledIff` | db/db.go:137-195 | The transaction ends committed or rolled back on every exit except "No fields for update". |
| `Db.EmptyPatchLeavesTransactionOpen` | internal/repository/product_repository.go:155-158 | The body `{}` leaves the transaction begun and not finished. The caller receives the error text "No fields for update". |
| `Db.PatchProductClosed` | db/db.go:177-180 | With a rollback added on the empty path, every run finishes its transaction. Its results match the original, and its calls are the original's, with one `Rollback` appended exactly on the "No fields for update" path. |
| `Db.MissingRowLooksLikeSuccess` | db/db.go:189-195 | If no row matches, a non-empty patch returns the zero product and no error. |
| `Db.UpdateProduct` | db/db.go:118-134 | The calls are exactly `Begin`, then, unless `Begin` failed, the fixed UPDATE of all four mutable columns, then `Rollback` when `Exec` failed and `Commit` otherwise. There is no read-back. The function returns its input unchanged. A failure of `Begin`, `Exec` or `Commit` is fatal. |
| `Db.UpdateArgs` | db/db.go:123 | Exactly five arguments are bound. `$1..$4` are name, quantity, unit and stores: NULL when absent, the value when present. `$5` is the path id. |
| `Db.PatchStore` | db/db.go:197-221 | The calls are exact: `[Begin]` when `Begin` fails. Otherwise `Begin`, then the fixed merge statement with arguments `(jsonStore, id)`. A failed `Exec` is followed by `Rollback` and returns the zero product. A successful one is followed by the read-back and `Commit`, and, only if the commit fails, `Rollback`, returning exactly the commit's error. |
| `Store.PatchEffect` | db/db.go:181-183 | After the patch statement, the row holds the body's supplied fields and keeps the rest of the old row. |
| `Store.ReplaceEffect` | internal/repository/product_repository.go:101 | After the replace statement, the row its `WHERE id=$5` addresses (the path id is that row's id) holds exactly the body, with absent fields NULL. The id column keeps the old id whatever id the body carries, because a replace never writes it. |
| `Store.ReplaceClearsPatchKeeps` | db/db.go:123 | For a body without `unit`, on the row the path id addresses, a replace clears `unit` and a patch keeps it. |
| `Store.MergeStores` | db/db.go:205 | The merge changes only the `stores` column. |
| `Store.MergeKeepsOmittedKeys` | db/db.go:205 | After the merge, the keys are the union of the stored and patch keys. Patch prices win, and every omitted key keeps its price. |
| `Store.MergeIdempotent` | internal/repository/product_repository.go:183 | Applying the same merge twice equals applying it once. |
| `Store.MergeIntoNullIsNull` | db/db.go:205 | Merging into a NULL `stores` column leaves the row unchanged. |
| `Store.MergeExample` | db/db.go:205-207 | `{storeA: 3000, storeB: 6000}` merged with `{storeB: 0, storeC: 1000}` gives `{storeA: 3000, storeB: 0, storeC: 1000}`. |
| `Store.IdText` | db/db.go:189 | The text of an id is its decimal form, with a leading `-` when negative, and it reads back as the id. |
| `Store.SelectRow` | db/db.go:189 | The read-back answers with the stored row, or with no row. |
| `Store.SelectFindsNamedRow` | db/db.go:189 | The select by a path id finds the stored row exactly when the row has that id. |
| `Store.PatchedId` | db/db.go:165-172 | After a patch, the id column holds the body's id when that is non-zero, and the old id otherwise. |
| `Store.PatchProductReturnsOverlay` | internal/repository/product_repository.go:159-173 | A non-empty patch that keeps the row's id has its read-back answered from the updated row. It returns that row and no error, and the row is the old row overlaid with the body. |
| `Store.PatchMovingIdReturnsZeroProduct` | db/db.go:181-195 | A patch whose body has another non-zero id moves the row to that id. The read-back by the path id then finds nothing, and the run returns the zero product with no error. |
| `Store.ExecMerge` | db/db.go:205-207 | Executing a statement changes only the `stores` column. The merge statement aimed at the row's id, whose `$1` decodes to an object, merges that object into the stores. |
| `Store.PatchStoreReturnsMerged` | internal/repository/product_repository.go:183-198 | The merge run executes the statement that carries `jsonStore` and the path id. Its read-back is answered from the row as that statement left it, and it returns the row with the decoded `jsonStore` merged into its stores, with no error. |

## Left out

- Connecting to Postgres, loading the env file, HTTP handlers, routing and
  servers: these are I/O and transport plumbing.
- The service layer and the repository interface: they are passthroughs
  with no logic.
- `GetAllProducts`, `GetProductById`, `CreateProduct` and `DeleteProduct`:
  each is a single SQL call with no decision logic.
- The database itself. Its answers to `Begin`, `Exec`, the read-back and
  `Commit` are inputs of each run, and atomicity and isolation are not
  modelled.
- `Store.MergeStores`: only models a JSON object patch merged into a JSON
  object. PostgreSQL's `||` on other JSON values, such as `null` or arrays,
  is not modelled.
- Parsing the id string as an integer, the `[]byte` to `string` conversion of
  the store JSON, and JSON encoding and decoding (`Stores.Value` and
  `Stores.Scan`). The statement's id argument is the text the caller passed.
  In `Store.ExecMerge` the decoding of `$1` is a parameter.
- `Store.SelectRow`: a path id matches a row only in the row id's `%d`
  form. Other texts the database would also cast to that id, such as `007`,
  are not modelled.
- The messages printed to standard output on the error paths (db/db.go:178,
  186, 192, 210 and 217): they do not affect the returned values.
- `Db.ReadBack`: models a read-back that either finds the whole row or finds
  none. A scan that fails partway and leaves some fields filled is not
  modelled.
- `ProductResponse.ToString`: it involves float formatting and depends on
  map iteration order.
- Floats are opaque 64-bit patterns. Only whether they are present matters,
  and for a plain float field Go's `IsZero` compares the bit pattern.
- Reflection is modelled only over the value kinds the body can hold. A
  plain map-valued field, which `ProductResponse` does not have, is treated
  as never zero.
- The product id (Go `int`) is the 64-bit newtype `Int64`, and no arithmetic
  is done on it. The placeholder counter `argIndex` is a `nat`. It never
  exceeds the field count plus one, so it cannot overflow.

## Findings

| source | as written | input that shows it | evidently intended | confidence | as-written member | corrected member |
|---|---|---|---|---|---|---|
| db/db.go:177-180 | The "No fields for update" return happens after `DB.Begin()` and neither commits nor rolls back, so the transaction and its pooled connection stay open. The same code is at internal/repository/product_repository.go:155-158. | PATCH body `{}` with a working database: the run is just `[Begin]`. | Roll back before returning the error, as every other exit path of the function does. | medium, not executed | `Db.EmptyPatchLeavesTransactionOpen` | `Db.PatchProductClosed` |

=== FILE: builder.dfy ===
/**
 * Rendering a projection as the `PatchProduct` statement: the loop that
 * builds `col = $k` clauses and their arguments, the text of the UPDATE,
 * and its argument list with the product id last.
 */
module Builder {
  import opened Models
  import opened Wrappers
  import opened Patch
  import Utils
  import Text

  /** `fmt.Sprintf("%s = $%d", column, index)`. */
  function RenderClause(c: Clause): (text: string)
    ensures var n := |c.column|;
            && |text| > n + 4
            && text[..n] == c.column
            && text[n..n + 4] == " = $"
            && Text.AllDigits(text[n + 4..])
            && Text.DecimalValue(text[n + 4..]) == c.index
  {
    var digits := Text.Decimal(c.index);
    Text.DecimalRoundTrip(c.index);
    var text := c.column + " = $" + digits;
    assert text[|c.column| + 4..] == digits;
    text
  }

  function Rendered(clauses: seq<Clause>): (texts: seq<string>)
    ensures |texts| == |clauses|
  {
    seq(|clauses|, k requires 0 <= k < |clauses| => RenderClause(clauses[k]))
  }

  function ArgsOf(clauses: seq<Clause>): (args: seq<Value>)
    ensures |args| == |clauses|
  {
    seq(|clauses|, k requires 0 <= k < |clauses| => clauses[k].value)
  }

  lemma RenderedSnoc(clauses: seq<Clause>, c: Clause)
    ensures Rendered(clauses + [c]) == Rendered(clauses) + [RenderClause(c)]
  {
  }

  lemma ArgsOfSnoc(clauses: seq<Clause>, c: Clause)
    ensures ArgsOf(clauses + [c]) == ArgsOf(clauses) + [c.value]
  {
  }

  /** One iteration of the loop keeps `built` a prefix of the projection. */
  lemma WalkStep(fields: seq<StructField>, values: seq<FieldValue>, i: nat, next: nat, built: seq<Clause>)
    requires |fields| == |values| && i < |values|
    requires built + ProjectFrom(fields, values, i, next) == Project(fields, values)
    ensures var o := Supplied(values[i]);
            o.Some? ==> (built + [Clause(Utils.FieldToColumnName(fields[i]), next, o.value)])
                        + ProjectFrom(fields, values, i + 1, next + 1) == Project(fields, values)
    ensures Supplied(values[i]).None? ==>
              built + ProjectFrom(fields, values, i + 1, next) == Project(fields, values)
  {
    var o := Supplied(values[i]);
    if o.Some? {
      var c := Clause(Utils.FieldToColumnName(fields[i]), next, o.value);
      var rest := ProjectFrom(fields, values, i + 1, next + 1);
      assert ProjectFrom(fields, values, i, next) == [c] + rest;
      assert (built + [c]) + rest == built + ([c] + rest);
    }
  }

  /**
   * The loop of `PatchProduct`: walk the fields in order, append a clause
   * and an argument for every supplied field, and advance the placeholder
   * counter. It produces exactly the rendering of the projection.
   */
  method BuildSetList(fields: seq<StructField>, values: seq<FieldValue>)
    returns (updateClauses: seq<string>, args: seq<Value>, argIndex: nat)
    requires |fields| == |values|
    ensures argIndex == |Project(fields, values)| + 1
    ensures updateClauses == Rendered(Project(fields, values))
    ensures args == ArgsOf(Project(fields, values))
  {
    updateClauses, args, argIndex := [], [], 1;
    ghost var built: seq<Clause> := [];
    var i := 0;
    while i < |fields|
      invariant 0 <= i <= |fields|
      invariant built + ProjectFrom(fields, values, i, argIndex) == Project(fields, values)
      invariant argIndex == |built| + 1
      invariant updateClauses == Rendered(built)
      invariant args == ArgsOf(built)
    {
      var supplied := false;
      var fieldValue: Value := IntVal(0);
      match values[i] {
        case Pointer(target) =>
          if target.Some? {
            supplied, fieldValue := true, target.value;
          }
        case Direct(v) =>
          if !IsZero(v) {
            supplied, fieldValue := true, v;
          }
      }
      assert supplied ==> Supplied(values[i]) == Some(fieldValue);
      assert !supplied ==> Supplied(values[i]).None?;
      WalkStep(fields, values, i, argIndex, built);
      if supplied {
        var columnName := Utils.FieldToColumnName(fields[i]);
        ghost var clause := Clause(columnName, argIndex, fieldValue);
        RenderedSnoc(built, clause);
        ArgsOfSnoc(built, clause);
        updateClauses := updateClauses + [columnName + " = $" + Text.Decimal(argIndex)];
        args := args + [fieldValue];
        built := built + [clause];
        argIndex := argIndex + 1;
      }
      i := i + 1;
    }
    assert built + [] == built;
  }

  /** `Update product set <clauses joined by ", "> where id=$<n+1>`. */
  function PatchQuery(clauses: seq<Clause>): (query: string)
    ensures var setList := Text.Join(Rendered(clauses), ", ");
            var head := "Update product set ";
            && |query| == |head| + |setList| + 10 + |WherePlaceholder(clauses)|
            && query[..|head|] == head
            && query[|head|..|head| + |setList|] == setList
            && query[|head| + |setList|..|head| + |setList| + 10] == " where id="
            && query[|head| + |setList| + 10..] == WherePlaceholder(clauses)
  {
    var head := "Update product set ";
    var setList := Text.Join(Rendered(clauses), ", ");
    var query := head + setList + " where id=" + WherePlaceholder(clauses);
    assert query[..|head|] == head;
    assert query[|head|..|head| + |setList|] == setList;
    query
  }

  /** The placeholder of the WHERE clause: `$` and the number one past the last SET placeholder. */
  function WherePlaceholder(clauses: seq<Clause>): (placeholder: string)
    ensures |placeholder| >= 2 && placeholder[0] == '$'
    ensures Text.AllDigits(placeholder[1..]) && Text.DecimalValue(placeholder[1..]) == |clauses| + 1
  {
    var digits := Text.Decimal(|clauses| + 1);
    Text.DecimalRoundTrip(|clauses| + 1);
    assert ("$" + digits)[1..] == digits;
    "$" + digits
  }

  /** A clause whose column has no comma renders without a comma. */
  lemma RenderedCommaFree(c: Clause)
    requires ',' !in c.column
    ensures ',' !in RenderClause(c)
  {
    var digits := Text.Decimal(c.index);
    assert ',' !in digits;
    assert RenderClause(c) == c.column + " = $" + digits;
  }

  /**
   * The SET part of the statement splits on commas back into the rendered
   * clauses, in order (each after the first with the space of `", "`),
   * provided no column holds a comma, as tag-derived columns never do.
   */
  lemma SetListReadsBack(clauses: seq<Clause>)
    requires |clauses| >= 1
    requires forall k :: 0 <= k < |clauses| ==> ',' !in clauses[k].column
    ensures var texts := Rendered(clauses);
            Text.Split(Text.Join(texts, ", "), ',') == [texts[0]] + Text.Spaced(texts[1..])
  {
    var texts := Rendered(clauses);
    var pieces := [texts[0]] + Text.Spaced(texts[1..]);
    forall k | 0 <= k < |clauses|
      ensures ',' !in texts[k]
    {
      RenderedCommaFree(clauses[k]);
    }
    assert forall k :: 0 <= k < |pieces| ==> ',' !in pieces[k] by {
      forall k | 1 <= k < |pieces|
        ensures ',' !in pieces[k]
      {
        assert pieces[k] == " " + texts[k];
      }
    }
    Text.JoinCommaSpace(texts);
    Text.SplitJoin(pieces, ',');
  }

  /**
   * The statement's arguments: placeholder `$m` binds argument `m - 1`, so
   * each clause binds its own value and the WHERE placeholder binds the id.
   */
  function PatchArgs(clauses: seq<Clause>, id: string): (args: seq<Value>)
    requires forall k :: 0 <= k < |clauses| ==> clauses[k].index == k + 1
    ensures |args| == |clauses| + 1
    ensures args[|clauses|] == StringVal(id)
    ensures forall k :: 0 <= k < |clauses| ==> args[clauses[k].index - 1] == clauses[k].value
  {
    ArgsOf(clauses) + [StringVal(id)]
  }

  /**
   * No two placeholders of the statement coincide: the SET placeholders are
   * pairwise distinct and all differ from the WHERE placeholder.
   */
  lemma PlaceholdersDistinct(clauses: seq<Clause>)
    requires forall k :: 0 <= k < |clauses| ==> clauses[k].index == k + 1
    ensures forall j, k :: 0 <= j < k < |clauses| ==> Text.Decimal(clauses[j].index) != Text.Decimal(clauses[k].index)
    ensures forall k :: 0 <= k < |clauses| ==> "$" + Text.Decimal(clauses[k].index) != WherePlaceholder(clauses)
  {
    forall j, k | 0 <= j < k < |clauses|
      ensures Text.Decimal(clauses[j].index) != Text.Decimal(clauses[k].index)
    {
      Text.DecimalInjective(clauses[j].index, clauses[k].index);
    }
    forall k | 0 <= k < |clauses|
      ensures "$" + Text.Decimal(clauses[k].index) != WherePlaceholder(clauses)
    {
      Text.DecimalInjective(clauses[k].index, |clauses| + 1);
      assert ("$" + Text.Decimal(clauses[k].index))[1..] == Text.Decimal(clauses[k].index);
      assert WherePlaceholder(clauses)[1..] == Text.Decimal(|clauses| + 1);
    }
  }
}

=== FILE: db.dfy ===
/**
 * The three update operations of `db/db.go` (and their method twins in
 * `internal/repository/product_repository.go`) as runs against an
 * abstract database. The database's answers are an input (`Env`); a run
 * records the calls made on the transaction and what the Go function
 * returns, or that `log.Fatal` ended the process.
 */
module Db {
  import opened Wrappers
  import opened Models
  import Patch
  import Builder

  /** A statement argument: SQL NULL (what a nil pointer binds to) or a value. */
  datatype Arg = Null | Bound(v: Value)

  datatype Stmt = Stmt(query: string, args: seq<Arg>)

  /** The calls a run makes, in order. */
  datatype TxOp = Begin | Exec(stmt: Stmt) | QueryRow(stmt: Stmt) | Commit | Rollback

  datatype Error = NoFieldsForUpdate | StoreError(message: string)

  /** The text of the error the caller receives. */
  function Message(e: Error): (text: string) {
    match e
    case NoFieldsForUpdate => "No fields for update"
    case StoreError(m) => m
  }

  /**
   * What the database answers: whether `Begin`, the update's `Exec` and
   * `Commit` fail (with their message), and the row the read-back finds.
   */
  datatype Env = Env(
    beginError: Option<string>,
    execError: Option<string>,
    row: Option<Product>,
    commitError: Option<string>)

  /** `Fatal`: `log.Fatal` ended the process. `Returned`: the Go function's two results. */
  datatype Outcome<T> = Fatal | Returned(value: T, err: Option<Error>)

  datatype Run<T> = Run(ops: seq<TxOp>, outcome: Outcome<T>)

  function Bind(vs: seq<Value>): (args: seq<Arg>)
    ensures |args| == |vs|
    ensures forall k :: 0 <= k < |vs| ==> args[k] == Bound(vs[k])
  {
    seq(|vs|, k requires 0 <= k < |vs| => Bound(vs[k]))
  }

  /** A nil pointer binds NULL, a non-nil one its target. */
  function OptArg(o: Option<Value>): (a: Arg)
    ensures a.Null? <==> o.None?
  {
    match o
    case Some(v) => Bound(v)
    case None => Null
  }

  predicate Executes(ops: seq<TxOp>) {
    exists k :: 0 <= k < |ops| && ops[k].Exec?
  }

  /** The transaction is finished: committed, rolled back, or the process is gone. */
  predicate Settled<T>(run: Run<T>) {
    || run.outcome.Fatal?
    || (|run.ops| > 0 && run.ops[|run.ops| - 1] in {Commit, Rollback})
  }

  /** The read-back: the row whose id the path names, bound to `$1`. */
  function SelectById(id: string): (s: Stmt)
    ensures s.query == "select * from product where product.id = $1"
    ensures s.args == [Bound(StringVal(id))]
  {
    Stmt("select * from product where product.id = $1", [Bound(StringVal(id))])
  }

  /** The scan of the read-back: its error is ignored, so a missing row leaves the zero product. */
  function ReadBack(env: Env): (p: Product)
    ensures env.row.None? ==> p == ZeroProduct
    ensures env.row.Some? ==> p == env.row.value
  {
    env.row.GetOr(ZeroProduct)
  }

  // ---------------------------------------------------------------------------
  // PatchProduct

  /** The UPDATE that a non-empty projection becomes, with the id bound last. */
  function PatchStatement(clauses: seq<Patch.Clause>, id: string): (s: Stmt)
    requires forall k :: 0 <= k < |clauses| ==> clauses[k].index == k + 1
    ensures s.query == Builder.PatchQuery(clauses)
    ensures |s.args| == |clauses| + 1
    ensures s.args[|clauses|] == Bound(StringVal(id))
    ensures forall k :: 0 <= k < |clauses| ==> s.args[clauses[k].index - 1] == Bound(clauses[k].value)
  {
    Stmt(Builder.PatchQuery(clauses), Bind(Builder.PatchArgs(clauses, id)))
  }

  /** The calls after a successful `Begin` once an UPDATE is to be executed. */
  function ExecuteUpdate(update: Stmt, id: string, env: Env): (run: Run<Product>)
    ensures env.execError.Some? ==>
              run == Run([Begin, Exec(update), Rollback], Returned(ZeroProduct, Some(StoreError(env.execError.value))))
    ensures env.execError.None? ==>
              && run.ops == [Begin, Exec(update), QueryRow(SelectById(id)), Commit]
              && run.outcome == Returned(ReadBack(env), if env.commitError.Some? then Some(StoreError(env.commitError.value)) else None)
  {
    if env.execError.Some? then
      Run([Begin, Exec(update), Rollback], Returned(ZeroProduct, Some(StoreError(env.execError.value))))
    else
      var ops := [Begin, Exec(update), QueryRow(SelectById(id)), Commit];
      match env.commitError
      case Some(m) => Run(ops, Returned(ReadBack(env), Some(StoreError(m))))
      case None => Run(ops, Returned(ReadBack(env), None))
  }

  /**
   * The transaction of `PatchProduct` for any statement: `empty` says the
   * projection had nothing to set, `update` is the statement it built.
   */
  function PatchRun(empty: bool, update: Stmt, id: string, env: Env): (run: Run<Product>)
    ensures 1 <= |run.ops| <= 4 && run.ops[0] == Begin
    ensures run.outcome.Fatal? <==> env.beginError.Some?
    ensures run.outcome == Returned(ZeroProduct, Some(NoFieldsForUpdate)) <==> env.beginError.None? && empty
    ensures Executes(run.ops) <==> env.beginError.None? && !empty
    ensures env.beginError.Some? || empty ==> run.ops == [Begin]
    ensures forall k :: 0 <= k < |run.ops| && run.ops[k].Exec? ==> k == 1 && run.ops[k].stmt == update
    ensures Executes(run.ops) && env.execError.Some? ==>
              && |run.ops| == 3
              && run.ops[2] == Rollback
              && run.outcome == Returned(ZeroProduct, Some(StoreError(env.execError.value)))
    ensures Executes(run.ops) && env.execError.None? ==>
              && |run.ops| == 4
              && run.ops[2] == QueryRow(SelectById(id))
              && run.ops[3] == Commit
              && run.outcome.Returned?
              && run.outcome.value == ReadBack(env)
              && run.outcome.err == (if env.commitError.Some? then Some(StoreError(env.commitError.value)) else None)
  {
    if env.beginError.Some? then Run([Begin], Fatal)
    else if empty then Run([Begin], Returned(ZeroProduct, Some(NoFieldsForUpdate)))
    else
      var run := ExecuteUpdate(update, id, env);
      assert run.ops[1].Exec?;
      run
  }

  /** `PatchProduct(DB, id, product)`, as written. */
  function PatchProduct(id: string, body: ProductResponse, env: Env): (run: Run<Product>)
    ensures 1 <= |run.ops| <= 4 && run.ops[0] == Begin
    ensures run.outcome.Fatal? <==> env.beginError.Some?
    ensures run.outcome == Returned(ZeroProduct, Some(NoFieldsForUpdate))
            <==> env.beginError.None? && Patch.BodyClauses(body) == []
    ensures Executes(run.ops) <==> env.beginError.None? && Patch.BodyClauses(body) != []
    ensures env.beginError.Some? || Patch.BodyClauses(body) == [] ==> run.ops == [Begin]
    ensures forall k :: 0 <= k < |run.ops| && run.ops[k].Exec? ==>
              k == 1 && run.ops[k].stmt == PatchStatement(Patch.BodyClauses(body), id)
    ensures Executes(run.ops) && env.execError.Some? ==>
              && |run.ops| == 3
              && run.ops[2] == Rollback
              && run.outcome == Returned(ZeroProduct, Some(StoreError(env.execError.value)))
    ensures Executes(run.ops) && env.execError.None? ==>
              && |run.ops| == 4
              && run.ops[2] == QueryRow(SelectById(id))
              && run.ops[3] == Commit
              && run.outcome.Returned?
              && run.outcome.value == ReadBack(env)
              && run.outcome.err == (if env.commitError.Some? then Some(StoreError(env.commitError.value)) else None)
  {
    var clauses := Patch.BodyClauses(body);
    PatchRun(clauses == [], PatchStatement(clauses, id), id, env)
  }

  /** A body projects to nothing exactly when its id is zero and every pointer is nil. */
  lemma EmptyBody(body: ProductResponse)
    ensures Patch.BodyClauses(body) == []
            <==> body.id == 0 && body.name.None? && body.quantity.None? && body.unit.None? && body.stores.None?
  {
    Patch.BodyProjection(body);
    assert |Patch.Pairs(Patch.BodyClauses(body))| == |Patch.BodyClauses(body)|;
  }

  /**
   * As written, the "No fields for update" return leaves the transaction
   * begun and neither committed nor rolled back; every other exit settles it.
   */
  lemma PatchProductSettledIff(id: string, body: ProductResponse, env: Env)
    ensures Settled(PatchProduct(id, body, env))
            <==> !(env.beginError.None? && body.id == 0 && body.name.None? && body.quantity.None?
                   && body.unit.None? && body.stores.None?)
  {
    EmptyBody(body);
  }

  /** The body `{}` with a working database leaves the transaction open. */
  lemma EmptyPatchLeavesTransactionOpen()
    ensures var run := PatchProduct("3", ProductResponse(0, None, None, None, None), Env(None, None, None, None));
            && run.ops == [Begin]
            && !Settled(run)
            && run.outcome.Returned? && run.outcome.err.Some?
            && Message(run.outcome.err.value) == "No fields for update"
  {
    EmptyBody(ProductResponse(0, None, None, None, None));
  }

  /**
   * A patch whose id matches no row still commits and reports success, with
   * the zero product: the read-back's "no rows" error is dropped.
   */
  lemma MissingRowLooksLikeSuccess(id: string, body: ProductResponse)
    requires Patch.BodyClauses(body) != []
    ensures PatchProduct(id, body, Env(None, None, None, None)).outcome == Returned(ZeroProduct, None)
  {
  }

  /** `PatchProduct` with a rollback on the "No fields for update" path. */
  function PatchProductClosed(id: string, body: ProductResponse, env: Env): (run: Run<Product>)
    ensures Settled(run)
    ensures run.outcome == PatchProduct(id, body, env).outcome
    ensures Executes(run.ops) <==> Executes(PatchProduct(id, body, env).ops)
    ensures var original := PatchProduct(id, body, env);
            run.ops == original.ops
                       + (if original.outcome == Returned(ZeroProduct, Some(NoFieldsForUpdate)) then [Rollback] else [])
  {
    var run := PatchProduct(id, body, env);
    if run.outcome == Returned(ZeroProduct, Some(NoFieldsForUpdate)) then
      var closed := Run(run.ops + [Rollback], run.outcome);
      assert !Executes(run.ops);
      assert closed.ops == [Begin, Rollback];
      closed
    else run
  }

  // ---------------------------------------------------------------------------
  // UpdateProduct

  const UpdateQuery := "UPDATE public.product SET \"name\"=$1, quantity=$2, unit=$3, stores=$4 WHERE id=$5;"

  /** The four mutable columns, present or not, then the id. */
  function UpdateArgs(body: ProductResponse, id: string): (args: seq<Arg>)
    ensures |args| == 5
    ensures args[4] == Bound(StringVal(id))
    ensures body.name.None? ==> args[0] == Null
    ensures body.name.Some? ==> args[0] == Bound(StringVal(body.name.value))
    ensures body.quantity.None? ==> args[1] == Null
    ensures body.quantity.Some? ==> args[1] == Bound(FloatVal(body.quantity.value))
    ensures body.unit.None? ==> args[2] == Null
    ensures body.unit.Some? ==> args[2] == Bound(StringVal(body.unit.value))
    ensures body.stores.None? ==> args[3] == Null
    ensures body.stores.Some? ==> args[3] == Bound(StoresVal(body.stores.value))
  {
    [ OptArg(if body.name.Some? then Some(StringVal(body.name.value)) else None),
      OptArg(if body.quantity.Some? then Some(FloatVal(body.quantity.value)) else None),
      OptArg(if body.unit.Some? then Some(StringVal(body.unit.value)) else None),
      OptArg(if body.stores.Some? then Some(StoresVal(body.stores.value)) else None),
      Bound(StringVal(id)) ]
  }

  /** `UpdateProduct(DB, id, product)`: a full replace that hands its input back. */
  function UpdateProduct(id: string, body: ProductResponse, env: Env): (run: Run<ProductResponse>)
    ensures run.outcome.Fatal? <==> env.beginError.Some? || env.execError.Some? || env.commitError.Some?
    ensures run.outcome.Returned? ==> run.outcome.value == body && run.outcome.err.None?
    ensures forall k :: 0 <= k < |run.ops| ==> !run.ops[k].QueryRow?
    ensures run.ops == [Begin] + (if env.beginError.Some? then []
                                  else [Exec(Stmt(UpdateQuery, UpdateArgs(body, id))),
                                        if env.execError.Some? then Rollback else Commit])
    ensures env.beginError.None? ==>
              && |run.ops| == 3
              && run.ops[1] == Exec(Stmt(UpdateQuery, UpdateArgs(body, id)))
              && run.ops[2] == (if env.execError.Some? then Rollback else Commit)
  {
    if env.beginError.Some? then Run([Begin], Fatal)
    else
      var update := Exec(Stmt(UpdateQuery, UpdateArgs(body, id)));
      if env.execError.Some? then Run([Begin, update, Rollback], Fatal)
      else if env.commitError.Some? then Run([Begin, update, Commit], Fatal)
      else Run([Begin, update, Commit], Returned(body, None))
  }

  // ---------------------------------------------------------------------------
  // PatchStore

  const MergeQuery := "Update product set stores = stores || $1::jsonb where id=$2"

  /** `PatchStore(DB, id, jsonStore)`: one fixed merge statement, then the read-back. */
  function PatchStore(id: string, jsonStore: string, env: Env): (run: Run<Product>)
    ensures run.outcome.Fatal? <==> env.beginError.Some?
    ensures var merge := Exec(Stmt(MergeQuery, [Bound(StringVal(jsonStore)), Bound(StringVal(id))]));
            && (env.beginError.Some? ==> run.ops == [Begin])
            && (env.beginError.None? && env.execError.Some? ==> run.ops == [Begin, merge, Rollback])
            && (env.beginError.None? && env.execError.None? ==>
                  run.ops == [Begin, merge, QueryRow(SelectById(id)), Commit]
                             + (if env.commitError.Some? then [Rollback] else []))
    ensures env.beginError.None? ==>
              && |run.ops| >= 3
              && run.ops[1] == Exec(Stmt(MergeQuery, [Bound(StringVal(jsonStore)), Bound(StringVal(id))]))
              && Settled(run)
              && (run.ops[|run.ops| - 1] == Rollback <==> env.execError.Some? || env.commitError.Some?)
    ensures env.beginError.None? && env.execError.Some? ==>
              run.outcome == Returned(ZeroProduct, Some(StoreError(env.execError.value)))
    ensures env.beginError.None? && env.execError.None? ==>
              && run.ops[2] == QueryRow(SelectById(id))
              && run.outcome.Returned?
              && run.outcome.value == ReadBack(env)
              && run.outcome.err == (if env.commitError.Some? then Some(StoreError(env.commitError.value)) else None)
  {
    if env.beginError.Some? then Run([Begin], Fatal)
    else
      var merge := Exec(Stmt(MergeQuery, [Bound(StringVal(jsonStore)), Bound(StringVal(id))]));
      if env.execError.Some? then
        Run([Begin, merge, Rollback], Returned(ZeroProduct, Some(StoreError(env.execError.value))))
      else
        var ops := [Begin, merge, QueryRow(SelectById(id)), Commit];
        match env.commitError
        case Some(m) => Run(ops + [Rollback], Returned(ReadBack(env), Some(StoreError(m))))
        case None => Run(ops, Returned(ReadBack(env), None))
  }
}

=== FILE: models.dfy ===
/**
 * The product entity in its two shapes: the row as scanned from the
 * database, with nullable wrappers, and the response/request body, with
 * optional fields. Also the field-by-field view of the body that the
 * reflective statement builder walks.
 */
module Models {
  import opened Wrappers

  /** Go's `int` on a 64-bit platform. */
  newtype Int64 = x: int | -0x8000_0000_0000_0000 <= x < 0x8000_0000_0000_0000

  /** A `float64`, kept as its IEEE 754 bit pattern: the code only moves these values around. */
  datatype Float64 = Float64(bits: bv64)

  /** Price per store name. */
  type Stores = map<string, Float64>

  /** `sql.NullString`: the payload means something only when `valid`. */
  datatype NullString = NullString(str: string, valid: bool)

  /** `sql.NullFloat64`. */
  datatype NullFloat64 = NullFloat64(float: Float64, valid: bool)

  /** A row of the `product` table as scanned into `models.Product`. */
  datatype Product = Product(
    id: Int64,
    name: NullString,
    quantity: NullFloat64,
    unit: NullString,
    stores: Option<Stores>)

  /** `models.ProductResponse`: every field but `id` is a pointer, `None` when nil. */
  datatype ProductResponse = ProductResponse(
    id: Int64,
    name: Option<string>,
    quantity: Option<Float64>,
    unit: Option<string>,
    stores: Option<Stores>)

  const NullText := NullString("", false)
  const NullNumber := NullFloat64(Float64(0), false)

  /** The zero value `var p models.Product`, which is also what a scan of SQL NULLs yields per column. */
  const ZeroProduct := Product(0, NullText, NullNumber, NullText, None)

  /** `Product.ToJSON`: a valid wrapper becomes a present field, an invalid one an absent field. */
  function ToJSON(p: Product): (r: ProductResponse)
    ensures r.id == p.id
    ensures r.name.Some? <==> p.name.valid
    ensures r.quantity.Some? <==> p.quantity.valid
    ensures r.unit.Some? <==> p.unit.valid
    ensures p.name.valid ==> r.name.value == p.name.str
    ensures p.quantity.valid ==> r.quantity.value == p.quantity.float
    ensures p.unit.valid ==> r.unit.value == p.unit.str
    ensures r.stores == p.stores
  {
    ProductResponse(
      p.id,
      if p.name.valid then Some(p.name.str) else None,
      if p.quantity.valid then Some(p.quantity.float) else None,
      if p.unit.valid then Some(p.unit.str) else None,
      p.stores)
  }

  /** The nullable column a present-or-absent text ends up as once stored and scanned back. */
  function StoredText(o: Option<string>): NullString {
    match o
    case Some(s) => NullString(s, true)
    case None => NullText
  }

  function StoredNumber(o: Option<Float64>): NullFloat64 {
    match o
    case Some(f) => NullFloat64(f, true)
    case None => NullNumber
  }

  /** A row whose invalid wrappers carry the zero payload, as every scan of a NULL leaves them. */
  predicate Canonical(p: Product) {
    && (!p.name.valid ==> p.name == NullText)
    && (!p.quantity.valid ==> p.quantity == NullNumber)
    && (!p.unit.valid ==> p.unit == NullText)
  }

  /** The row that holds exactly the body's fields. */
  function FromJSON(r: ProductResponse): (p: Product)
    ensures Canonical(p)
  {
    Product(r.id, StoredText(r.name), StoredNumber(r.quantity), StoredText(r.unit), r.stores)
  }

  /** Presence survives the trip through the nullable row and back, for every body. */
  lemma ToJSONAfterFromJSON(r: ProductResponse)
    ensures ToJSON(FromJSON(r)) == r
  {
  }

  /** `ToJSON` loses nothing but the payload of invalid wrappers: on canonical rows it is invertible. */
  lemma FromJSONAfterToJSON(p: Product)
    ensures FromJSON(ToJSON(p)) == p <==> Canonical(p)
  {
  }

  // ---------------------------------------------------------------------------
  // The body as the reflective builder sees it.

  /** The dynamic value behind a field (or behind a non-nil pointer field). */
  datatype Value =
    | IntVal(i: Int64)
    | StringVal(s: string)
    | FloatVal(f: Float64)
    | StoresVal(m: Stores)

  /** A field read through reflection: a pointer (with its target when non-nil) or a plain value. */
  datatype FieldValue = Pointer(target: Option<Value>) | Direct(v: Value)

  /** `reflect.StructField` reduced to what the builder reads: the Go name and the `json` tag. */
  datatype StructField = StructField(name: string, jsonTag: string)

  /** The declared fields of `ProductResponse`, in declaration order. */
  const ResponseFields: seq<StructField> := [
    StructField("Id", "id"),
    StructField("Name", "name"),
    StructField("Quantity", "quantity"),
    StructField("Unit", "unit"),
    StructField("Stores", "stores")
  ]

  /** `reflect.ValueOf(body).Field(i)` for each `i`, in declaration order. */
  function FieldValues(body: ProductResponse): (vs: seq<FieldValue>)
    ensures |vs| == |ResponseFields|
    ensures vs[0].Direct?
    ensures forall k :: 1 <= k < |vs| ==> vs[k].Pointer?
  {
    [ Direct(IntVal(body.id)),
      Pointer(if body.name.Some? then Some(StringVal(body.name.value)) else None),
      Pointer(if body.quantity.Some? then Some(FloatVal(body.quantity.value)) else None),
      Pointer(if body.unit.Some? then Some(StringVal(body.unit.value)) else None),
      Pointer(if body.stores.Some? then Some(StoresVal(body.stores.value)) else None) ]
  }
}

=== FILE: patch.dfy ===
/**
 * The partial-update projection behind `PatchProduct`: walk the body's
 * fields in declaration order, keep a pointer field when it is non-nil and
 * a plain field when it is not its type's zero value, and number the kept
 * fields' placeholders `$1, $2, ...`.
 */
module Patch {
  import opened Wrappers
  import opened Models
  import Utils
  import Text

  /** The zero value of `v`'s kind: `0`, `""`, `+0.0`, and the empty map for stores. */
  function ZeroOf(v: Value): Value {
    match v
    case IntVal(_) => IntVal(0)
    case StringVal(_) => StringVal("")
    case FloatVal(_) => FloatVal(Float64(0))
    case StoresVal(_) => StoresVal(map[])
  }

  /**
   * `reflect.Value.IsZero` for the value kinds a plain field can hold: a
   * value is zero when it is its kind's zero value, except that a map is
   * zero only when nil, and the model's maps are never nil.
   */
  function IsZero(v: Value): (zero: bool)
    ensures zero <==> !v.StoresVal? && v == ZeroOf(v)
  {
    match v
    case IntVal(i) => i == 0
    case StringVal(s) => s == ""
    // Go compares the bit pattern, so -0.0 is not zero.
    case FloatVal(f) => f.bits == 0
    // Stores values are only ever reached through a non-nil pointer and
    // the model has no nil map, so a plain one is never zero.
    case StoresVal(_) => false
  }

  /** The value a field contributes to the update, or `None` when the field is skipped. */
  function Supplied(fv: FieldValue): (o: Option<Value>)
    ensures fv.Pointer? ==> o == fv.target
    ensures fv.Direct? ==> (o.Some? <==> !IsZero(fv.v))
    ensures o.Some? && fv.Direct? ==> o.value == fv.v
  {
    match fv
    case Pointer(target) => target
    case Direct(v) => if IsZero(v) then None else Some(v)
  }

  /** One `column = $index` assignment and the argument bound to its placeholder. */
  datatype Clause = Clause(column: string, index: nat, value: Value)

  /** The clauses for fields `i..`, numbering placeholders from `next`. */
  function ProjectFrom(fields: seq<StructField>, values: seq<FieldValue>, i: nat, next: nat): (clauses: seq<Clause>)
    requires |fields| == |values| && i <= |values|
    ensures |clauses| <= |values| - i
    ensures forall k :: 0 <= k < |clauses| ==> clauses[k].index == next + k
    decreases |values| - i
  {
    if i == |values| then []
    else
      match Supplied(values[i])
      case Some(v) => [Clause(Utils.FieldToColumnName(fields[i]), next, v)] + ProjectFrom(fields, values, i + 1, next + 1)
      case None => ProjectFrom(fields, values, i + 1, next)
  }

  /** The projection of a whole body: placeholders run `$1..$n` without gaps. */
  function Project(fields: seq<StructField>, values: seq<FieldValue>): (clauses: seq<Clause>)
    requires |fields| == |values|
    ensures |clauses| <= |fields|
    ensures forall k :: 0 <= k < |clauses| ==> clauses[k].index == k + 1
  {
    ProjectFrom(fields, values, 0, 1)
  }

  /** The positions `i..` of the fields that contribute, in increasing order. */
  function SuppliedFrom(values: seq<FieldValue>, i: nat): (ixs: seq<nat>)
    requires i <= |values|
    ensures forall k :: 0 <= k < |ixs| ==> i <= ixs[k] < |values| && Supplied(values[ixs[k]]).Some?
    ensures forall j :: i <= j < |values| && Supplied(values[j]).Some? ==> j in ixs
    ensures forall j, k :: 0 <= j < k < |ixs| ==> ixs[j] < ixs[k]
    decreases |values| - i
  {
    if i == |values| then []
    else if Supplied(values[i]).Some? then [i] + SuppliedFrom(values, i + 1)
    else SuppliedFrom(values, i + 1)
  }

  /** A clause that carries the column and the value of field `ix`. */
  predicate ComesFrom(fields: seq<StructField>, values: seq<FieldValue>, c: Clause, ix: nat)
    requires |fields| == |values|
  {
    && ix < |values|
    && c.column == Utils.FieldToColumnName(fields[ix])
    && Supplied(values[ix]) == Some(c.value)
  }

  /** Clause `k` comes from the `k`-th contributing field. */
  predicate Traces(fields: seq<StructField>, values: seq<FieldValue>, clauses: seq<Clause>, ixs: seq<nat>)
    requires |fields| == |values|
  {
    && |clauses| == |ixs|
    && forall k :: 0 <= k < |ixs| ==> ComesFrom(fields, values, clauses[k], ixs[k])
  }

  lemma {:induction false} ProjectFromTraces(fields: seq<StructField>, values: seq<FieldValue>, i: nat, next: nat)
    requires |fields| == |values| && i <= |values|
    ensures Traces(fields, values, ProjectFrom(fields, values, i, next), SuppliedFrom(values, i))
    decreases |values| - i
  {
    if i < |values| {
      var clauses := ProjectFrom(fields, values, i, next);
      var ixs := SuppliedFrom(values, i);
      match Supplied(values[i])
      case Some(v) =>
        var rest := ProjectFrom(fields, values, i + 1, next + 1);
        var restIxs := SuppliedFrom(values, i + 1);
        ProjectFromTraces(fields, values, i + 1, next + 1);
        assert clauses == [Clause(Utils.FieldToColumnName(fields[i]), next, v)] + rest;
        assert ixs == [i] + restIxs;
        forall k | 0 <= k < |ixs|
          ensures ComesFrom(fields, values, clauses[k], ixs[k])
        {
          if k > 0 {
            assert clauses[k] == rest[k - 1] && ixs[k] == restIxs[k - 1];
          }
        }
      case None =>
        ProjectFromTraces(fields, values, i + 1, next);
    }
  }

  /**
   * The projection holds exactly one clause per contributing field, in
   * declaration order, each carrying that field's column and value.
   */
  lemma ProjectionFollowsDeclarationOrder(fields: seq<StructField>, values: seq<FieldValue>)
    requires |fields| == |values|
    ensures Traces(fields, values, Project(fields, values), SuppliedFrom(values, 0))
  {
    ProjectFromTraces(fields, values, 0, 1);
  }

  /** Nothing is projected exactly when no field contributes. */
  lemma EmptyProjection(fields: seq<StructField>, values: seq<FieldValue>)
    requires |fields| == |values|
    ensures Project(fields, values) == [] <==> forall i :: 0 <= i < |values| ==> Supplied(values[i]).None?
  {
    ProjectionFollowsDeclarationOrder(fields, values);
    var ixs := SuppliedFrom(values, 0);
    if ixs != [] {
      assert ixs[0] in ixs;
    }
  }

  // ---------------------------------------------------------------------------
  // The projection of a `ProductResponse`.

  /** The (column, value) pairs of a list of clauses. */
  function Pairs(clauses: seq<Clause>): (ps: seq<(string, Value)>)
    ensures |ps| == |clauses|
  {
    seq(|clauses|, k requires 0 <= k < |clauses| => (clauses[k].column, clauses[k].value))
  }

  /** The pair a non-nil pointer field contributes. */
  function Emit(column: string, target: Option<Value>): seq<(string, Value)> {
    match target
    case Some(v) => [(column, v)]
    case None => []
  }

  /** The pairs a body should produce, field by field: present pointers, and a non-zero id. */
  function ExpectedPairs(body: ProductResponse): seq<(string, Value)> {
    (if body.id != 0 then [("id", IntVal(body.id))] else [])
    + ((if body.name.Some? then [("name", StringVal(body.name.value))] else [])
    + ((if body.quantity.Some? then [("quantity", FloatVal(body.quantity.value))] else [])
    + ((if body.unit.Some? then [("unit", StringVal(body.unit.value))] else [])
    + (if body.stores.Some? then [("stores", StoresVal(body.stores.value))] else []))))
  }

  function BodyClauses(body: ProductResponse): seq<Clause> {
    Project(ResponseFields, FieldValues(body))
  }

  /** One step of the walk: field `i` contributes its pair, if any, ahead of the rest. */
  lemma ProjectStep(fields: seq<StructField>, values: seq<FieldValue>, i: nat, next: nat)
    requires |fields| == |values| && i < |values|
    ensures var o := Supplied(values[i]);
            Pairs(ProjectFrom(fields, values, i, next))
            == Emit(Utils.FieldToColumnName(fields[i]), o)
               + Pairs(ProjectFrom(fields, values, i + 1, if o.Some? then next + 1 else next))
  {
    var o := Supplied(values[i]);
    var rest := ProjectFrom(fields, values, i + 1, if o.Some? then next + 1 else next);
    if o.Some? {
      assert ProjectFrom(fields, values, i, next)
          == [Clause(Utils.FieldToColumnName(fields[i]), next, o.value)] + rest;
    }
  }

  /** Each field's contribution, in declaration order, without numbering. */
  function PairsFrom(fields: seq<StructField>, values: seq<FieldValue>, i: nat): seq<(string, Value)>
    requires |fields| == |values| && i <= |values|
    decreases |values| - i
  {
    if i == |values| then []
    else Emit(Utils.FieldToColumnName(fields[i]), Supplied(values[i])) + PairsFrom(fields, values, i + 1)
  }

  /** Numbering placeholders does not change which pairs are projected, nor their order. */
  lemma {:induction false} ProjectFromPairs(fields: seq<StructField>, values: seq<FieldValue>, i: nat, next: nat)
    requires |fields| == |values| && i <= |values|
    ensures Pairs(ProjectFrom(fields, values, i, next)) == PairsFrom(fields, values, i)
    decreases |values| - i
  {
    if i < |values| {
      var o := Supplied(values[i]);
      ProjectStep(fields, values, i, next);
      ProjectFromPairs(fields, values, i + 1, if o.Some? then next + 1 else next);
    }
  }

  /** The contributions of five fields, unrolled. */
  lemma PairsFive(fields: seq<StructField>, values: seq<FieldValue>)
    requires |fields| == |values| == 5
    ensures PairsFrom(fields, values, 0)
         == Emit(Utils.FieldToColumnName(fields[0]), Supplied(values[0]))
          + (Emit(Utils.FieldToColumnName(fields[1]), Supplied(values[1]))
          + (Emit(Utils.FieldToColumnName(fields[2]), Supplied(values[2]))
          + (Emit(Utils.FieldToColumnName(fields[3]), Supplied(values[3]))
          + Emit(Utils.FieldToColumnName(fields[4]), Supplied(values[4])))))
  {
    var last := Emit(Utils.FieldToColumnName(fields[4]), Supplied(values[4]));
    assert PairsFrom(fields, values, 4) == last + PairsFrom(fields, values, 5);
    assert last + [] == last;
    assert PairsFrom(fields, values, 3) == Emit(Utils.FieldToColumnName(fields[3]), Supplied(values[3])) + PairsFrom(fields, values, 4);
    assert PairsFrom(fields, values, 2) == Emit(Utils.FieldToColumnName(fields[2]), Supplied(values[2])) + PairsFrom(fields, values, 3);
    assert PairsFrom(fields, values, 1) == Emit(Utils.FieldToColumnName(fields[1]), Supplied(values[1])) + PairsFrom(fields, values, 2);
  }

  /**
   * For a product body: `id` is set iff it is non-zero, every other field
   * iff its pointer is non-nil (even when it points at `0` or `""`), in the
   * order id, name, quantity, unit, stores.
   */
  lemma {:induction false} BodyProjection(body: ProductResponse)
    ensures Pairs(BodyClauses(body)) == ExpectedPairs(body)
  {
    var values := FieldValues(body);
    ProjectFromPairs(ResponseFields, values, 0, 1);
    PairsFive(ResponseFields, values);
    Utils.ResponseColumns();
    assert Emit(Utils.FieldToColumnName(ResponseFields[0]), Supplied(values[0]))
        == (if body.id != 0 then [("id", IntVal(body.id))] else []);
    assert Emit(Utils.FieldToColumnName(ResponseFields[1]), Supplied(values[1]))
        == (if body.name.Some? then [("name", StringVal(body.name.value))] else []);
    assert Emit(Utils.FieldToColumnName(ResponseFields[2]), Supplied(values[2]))
        == (if body.quantity.Some? then [("quantity", FloatVal(body.quantity.value))] else []);
    assert Emit(Utils.FieldToColumnName(ResponseFields[3]), Supplied(values[3]))
        == (if body.unit.Some? then [("unit", StringVal(body.unit.value))] else []);
    assert Emit(Utils.FieldToColumnName(ResponseFields[4]), Supplied(values[4]))
        == (if body.stores.Some? then [("stores", StoresVal(body.stores.value))] else []);
  }
}

=== FILE: store.dfy ===
/**
 * What the statements the engine issues do to the addressed row, by the
 * relational store's semantics: `SET col = $k` overwrites one column, a
 * NULL argument clears it, and `stores || $1::jsonb` is the shallow union
 * of two JSON objects in which the right operand wins (NULL when the
 * stored column is NULL, since the operator is strict).
 */
module Store {
  import opened Wrappers
  import opened Models
  import Patch
  import Db
  import Text

  /** One `column = argument` assignment of an UPDATE. */
  datatype Assignment = Assign(column: string, arg: Db.Arg)

  /**
   * The row after one assignment; an argument whose type does not fit the
   * column would be rejected by the store, which the statements built here
   * never do, and leaves the row as it was.
   */
  function SetColumn(row: Product, a: Assignment): Product {
    match (a.column, a.arg)
    case ("id", Bound(IntVal(i))) => row.(id := i)
    case ("name", Bound(StringVal(s))) => row.(name := NullString(s, true))
    case ("name", Null) => row.(name := NullText)
    case ("quantity", Bound(FloatVal(f))) => row.(quantity := NullFloat64(f, true))
    case ("quantity", Null) => row.(quantity := NullNumber)
    case ("unit", Bound(StringVal(s))) => row.(unit := NullString(s, true))
    case ("unit", Null) => row.(unit := NullText)
    case ("stores", Bound(StoresVal(m))) => row.(stores := Some(m))
    case ("stores", Null) => row.(stores := None)
    case _ => row
  }

  /** The row after a SET list, applied left to right. */
  function ApplyAll(row: Product, assignments: seq<Assignment>): Product
    decreases |assignments|
  {
    if |assignments| == 0 then row else ApplyAll(SetColumn(row, assignments[0]), assignments[1..])
  }

  lemma {:induction false} ApplyAllAppend(row: Product, a: seq<Assignment>, b: seq<Assignment>)
    ensures ApplyAll(row, a + b) == ApplyAll(ApplyAll(row, a), b)
    decreases |a|
  {
    if |a| > 0 {
      assert (a + b)[0] == a[0];
      assert (a + b)[1..] == a[1..] + b;
      ApplyAllAppend(SetColumn(row, a[0]), a[1..], b);
    } else {
      assert a + b == b;
    }
  }

  function PairAssignments(pairs: seq<(string, Value)>): (sets: seq<Assignment>)
    ensures |sets| == |pairs|
  {
    seq(|pairs|, k requires 0 <= k < |pairs| => Assign(pairs[k].0, Db.Bound(pairs[k].1)))
  }

  /** The SET list of `PatchProduct`'s statement, each column bound to its clause's value. */
  function PatchAssignments(body: ProductResponse): seq<Assignment> {
    PairAssignments(Patch.Pairs(Patch.BodyClauses(body)))
  }

  /** A patch as the caller means it: supplied fields replace, the others stay. */
  function Overlay(current: ProductResponse, body: ProductResponse): (patched: ProductResponse) {
    ProductResponse(
      if body.id != 0 then body.id else current.id,
      if body.name.Some? then body.name else current.name,
      if body.quantity.Some? then body.quantity else current.quantity,
      if body.unit.Some? then body.unit else current.unit,
      if body.stores.Some? then body.stores else current.stores)
  }

  /** The assignment a field contributes to the patch, if it is supplied. */
  function Single(column: string, present: bool, v: Value): seq<Assignment> {
    if present then [Assign(column, Db.Bound(v))] else []
  }

  lemma ApplySingle(row: Product, column: string, present: bool, v: Value)
    ensures ApplyAll(row, Single(column, present, v)) == if present then SetColumn(row, Assign(column, Db.Bound(v))) else row
  {
    if present {
      assert Single(column, present, v)[1..] == [];
    }
  }

  lemma PairAssignmentsAppend(a: seq<(string, Value)>, b: seq<(string, Value)>)
    ensures PairAssignments(a + b) == PairAssignments(a) + PairAssignments(b)
  {
  }

  function IdSet(body: ProductResponse): seq<Assignment> {
    Single("id", body.id != 0, IntVal(body.id))
  }

  function NameSet(body: ProductResponse): seq<Assignment> {
    Single("name", body.name.Some?, StringVal(body.name.GetOr("")))
  }

  function QuantitySet(body: ProductResponse): seq<Assignment> {
    Single("quantity", body.quantity.Some?, FloatVal(body.quantity.GetOr(Float64(0))))
  }

  function UnitSet(body: ProductResponse): seq<Assignment> {
    Single("unit", body.unit.Some?, StringVal(body.unit.GetOr("")))
  }

  function StoresSet(body: ProductResponse): seq<Assignment> {
    Single("stores", body.stores.Some?, StoresVal(body.stores.GetOr(map[])))
  }

  /** The patch's SET list, field by field in declaration order. */
  lemma PatchAssignmentsShape(body: ProductResponse)
    ensures PatchAssignments(body)
         == IdSet(body) + (NameSet(body) + (QuantitySet(body) + (UnitSet(body) + StoresSet(body))))
  {
    var e0 := if body.id != 0 then [("id", IntVal(body.id))] else [];
    var e1 := if body.name.Some? then [("name", StringVal(body.name.value))] else [];
    var e2 := if body.quantity.Some? then [("quantity", FloatVal(body.quantity.value))] else [];
    var e3 := if body.unit.Some? then [("unit", StringVal(body.unit.value))] else [];
    var e4 := if body.stores.Some? then [("stores", StoresVal(body.stores.value))] else [];
    assert PatchAssignments(body) == PairAssignments(e0 + (e1 + (e2 + (e3 + e4)))) by {
      Patch.BodyProjection(body);
    }
    assert PairAssignments(e0 + (e1 + (e2 + (e3 + e4))))
        == PairAssignments(e0) + (PairAssignments(e1) + (PairAssignments(e2) + (PairAssignments(e3) + PairAssignments(e4)))) by {
      PairAssignmentsAppend(e3, e4);
      PairAssignmentsAppend(e2, e3 + e4);
      PairAssignmentsAppend(e1, e2 + (e3 + e4));
      PairAssignmentsAppend(e0, e1 + (e2 + (e3 + e4)));
    }
    assert PairAssignments(e0) == IdSet(body);
    assert PairAssignments(e1) == NameSet(body);
    assert PairAssignments(e2) == QuantitySet(body);
    assert PairAssignments(e3) == UnitSet(body);
    assert PairAssignments(e4) == StoresSet(body);
  }

  lemma ApplyFive(row: Product, s0: seq<Assignment>, s1: seq<Assignment>, s2: seq<Assignment>, s3: seq<Assignment>, s4: seq<Assignment>)
    ensures ApplyAll(row, s0 + (s1 + (s2 + (s3 + s4))))
         == ApplyAll(ApplyAll(ApplyAll(ApplyAll(ApplyAll(row, s0), s1), s2), s3), s4)
  {
    ApplyAllAppend(row, s0, s1 + (s2 + (s3 + s4)));
    ApplyAllAppend(ApplyAll(row, s0), s1, s2 + (s3 + s4));
    ApplyAllAppend(ApplyAll(ApplyAll(row, s0), s1), s2, s3 + s4);
    ApplyAllAppend(ApplyAll(ApplyAll(ApplyAll(row, s0), s1), s2), s3, s4);
  }

  function WithId(row: Product, body: ProductResponse): Product {
    if body.id != 0 then row.(id := body.id) else row
  }

  function WithName(row: Product, body: ProductResponse): Product {
    if body.name.Some? then row.(name := NullString(body.name.value, true)) else row
  }

  function WithQuantity(row: Product, body: ProductResponse): Product {
    if body.quantity.Some? then row.(quantity := NullFloat64(body.quantity.value, true)) else row
  }

  function WithUnit(row: Product, body: ProductResponse): Product {
    if body.unit.Some? then row.(unit := NullString(body.unit.value, true)) else row
  }

  function WithStores(row: Product, body: ProductResponse): Product {
    if body.stores.Some? then row.(stores := body.stores) else row
  }

  lemma IdStep(row: Product, body: ProductResponse)
    ensures ApplyAll(row, IdSet(body)) == WithId(row, body)
  {
    ApplySingle(row, "id", body.id != 0, IntVal(body.id));
  }

  lemma NameStep(row: Product, body: ProductResponse)
    ensures ApplyAll(row, NameSet(body)) == WithName(row, body)
  {
    ApplySingle(row, "name", body.name.Some?, StringVal(body.name.GetOr("")));
  }

  lemma QuantityStep(row: Product, body: ProductResponse)
    ensures ApplyAll(row, QuantitySet(body)) == WithQuantity(row, body)
  {
    ApplySingle(row, "quantity", body.quantity.Some?, FloatVal(body.quantity.GetOr(Float64(0))));
  }

  lemma UnitStep(row: Product, body: ProductResponse)
    ensures ApplyAll(row, UnitSet(body)) == WithUnit(row, body)
  {
    ApplySingle(row, "unit", body.unit.Some?, StringVal(body.unit.GetOr("")));
  }

  lemma StoresStep(row: Product, body: ProductResponse)
    ensures ApplyAll(row, StoresSet(body)) == WithStores(row, body)
  {
    ApplySingle(row, "stores", body.stores.Some?, StoresVal(body.stores.GetOr(map[])));
  }

  /** The row with the supplied fields of `body` written into it, in declaration order. */
  function OverlayRow(row: Product, body: ProductResponse): Product {
    WithStores(WithUnit(WithQuantity(WithName(WithId(row, body), body), body), body), body)
  }

  lemma ApplyPatchAssignments(row: Product, body: ProductResponse)
    ensures ApplyAll(row, PatchAssignments(body)) == OverlayRow(row, body)
  {
    PatchAssignmentsShape(body);
    ApplyFive(row, IdSet(body), NameSet(body), QuantitySet(body), UnitSet(body), StoresSet(body));
    var r0 := WithId(row, body);
    var r1 := WithName(r0, body);
    var r2 := WithQuantity(r1, body);
    var r3 := WithUnit(r2, body);
    IdStep(row, body);
    NameStep(r0, body);
    QuantityStep(r1, body);
    UnitStep(r2, body);
    StoresStep(r3, body);
  }

  /**
   * Running the patch statement changes exactly the supplied fields: the
   * row read back afterwards is the old row overlaid with the body. A
   * non-zero id in the body is written to the id column too.
   */
  lemma PatchEffect(row: Product, body: ProductResponse)
    ensures ToJSON(ApplyAll(row, PatchAssignments(body))) == Overlay(ToJSON(row), body)
  {
    ApplyPatchAssignments(row, body);
  }

  /** The SET list of `UpdateProduct`'s statement: `$1..$4` onto the four mutable columns. */
  function ReplaceAssignments(body: ProductResponse, id: string): seq<Assignment> {
    var args := Db.UpdateArgs(body, id);
    [Assign("name", args[0]), Assign("quantity", args[1]), Assign("unit", args[2]), Assign("stores", args[3])]
  }

  /**
   * A full replace leaves the row its `WHERE id=$5` addresses holding
   * exactly the body, absent fields cleared to NULL; the id column is never
   * assigned.
   */
  lemma ReplaceEffect(row: Product, body: ProductResponse, id: string)
    requires id == IdText(row.id)
    ensures ToJSON(ApplyAll(row, ReplaceAssignments(body, id))) == body.(id := row.id)
  {
    ReplaceSetList(row, body, id);
  }

  /** The SET list alone: `$5` never reaches it, so any row ends up holding the body. */
  lemma ReplaceSetList(row: Product, body: ProductResponse, id: string)
    ensures ToJSON(ApplyAll(row, ReplaceAssignments(body, id))) == body.(id := row.id)
  {
    var sets := ReplaceAssignments(body, id);
    var r1 := SetColumn(row, sets[0]);
    var r2 := SetColumn(r1, sets[1]);
    var r3 := SetColumn(r2, sets[2]);
    var r4 := SetColumn(r3, sets[3]);
    assert ApplyAll(row, sets) == ApplyAll(r1, sets[1..]);
    assert ApplyAll(r1, sets[1..]) == ApplyAll(r2, sets[2..]);
    assert ApplyAll(r2, sets[2..]) == ApplyAll(r3, sets[3..]);
    assert ApplyAll(r3, sets[3..]) == ApplyAll(r4, sets[4..]);
  }

  /**
   * The two contracts differ on an omitted field: replacing with a body
   * without `unit` clears it, patching with that body keeps the old unit.
   */
  lemma ReplaceClearsPatchKeeps(row: Product, body: ProductResponse, id: string)
    requires id == IdText(row.id)
    requires body.unit.None?
    ensures ToJSON(ApplyAll(row, ReplaceAssignments(body, id))).unit.None?
    ensures ToJSON(ApplyAll(row, PatchAssignments(body))).unit == ToJSON(row).unit
  {
    ReplaceEffect(row, body, id);
    PatchEffect(row, body);
  }

  // ---------------------------------------------------------------------------
  // The merge of `PatchStore`.

  /** `stores = stores || patch`. */
  function MergeStores(row: Product, patch: Stores): (r: Product)
    ensures r == row.(stores := r.stores)
  {
    match row.stores
    case Some(current) => row.(stores := Some(current + patch))
    case None => row
  }

  /**
   * The merge adds or overwrites exactly the patch's keys and keeps every
   * other stored key with its price.
   */
  lemma MergeKeepsOmittedKeys(row: Product, patch: Stores)
    requires row.stores.Some?
    ensures var merged := MergeStores(row, patch).stores;
            && merged.Some?
            && merged.value.Keys == row.stores.value.Keys + patch.Keys
            && (forall k :: k in patch ==> merged.value[k] == patch[k])
            && (forall k :: k in row.stores.value && k !in patch ==> merged.value[k] == row.stores.value[k])
  {
  }

  /** Merging the same patch twice is merging it once. */
  lemma MergeIdempotent(row: Product, patch: Stores)
    ensures MergeStores(MergeStores(row, patch), patch) == MergeStores(row, patch)
  {
    if row.stores.Some? {
      var once := row.stores.value + patch;
      assert once + patch == once;
    }
  }

  /** A product whose stores column is NULL stays NULL: the merge has nothing to merge into. */
  lemma MergeIntoNullIsNull(row: Product, patch: Stores)
    requires row.stores.None?
    ensures MergeStores(row, patch) == row
  {
  }

  const Price3000 := Float64(0x40A7_7000_0000_0000)
  const Price6000 := Float64(0x40B7_7000_0000_0000)
  const Price1000 := Float64(0x408F_4000_0000_0000)
  const Price0 := Float64(0)

  /** Stored `{storeA: 3000, storeB: 6000}` merged with `{storeB: 0, storeC: 1000}`. */
  lemma MergeExample()
    ensures var row := Product(3, NullString("tea", true), NullFloat64(Float64(0x4004_0000_0000_0000), true),
                               NullString("liters", true), Some(map["storeA" := Price3000, "storeB" := Price6000]));
            MergeStores(row, map["storeB" := Price0, "storeC" := Price1000]).stores
            == Some(map["storeA" := Price3000, "storeB" := Price0, "storeC" := Price1000])
  {
    var current := map["storeA" := Price3000, "storeB" := Price6000];
    var patch := map["storeB" := Price0, "storeC" := Price1000];
    assert current + patch == map["storeA" := Price3000, "storeB" := Price0, "storeC" := Price1000];
  }

  // ---------------------------------------------------------------------------
  // Whole operations against a store holding the addressed row: the
  // statement the run executes changes the row, and the read-back answers
  // from the changed row.

  /** The text of an id as `%d` renders it, which is the path id that names the row. */
  function IdText(key: Int64): (text: string)
    ensures |text| >= 1
    ensures key >= 0 ==> Text.AllDigits(text) && Text.DecimalValue(text) == key as int
    ensures key < 0 ==> text[0] == '-' && Text.AllDigits(text[1..]) && Text.DecimalValue(text[1..]) == -(key as int)
  {
    if key >= 0 then
      Text.DecimalRoundTrip(key as int);
      Text.Decimal(key as int)
    else
      var digits := Text.Decimal(-(key as int));
      Text.DecimalRoundTrip(-(key as int));
      assert ("-" + digits)[1..] == digits;
      "-" + digits
  }

  /** Different ids have different texts. */
  lemma IdTextInjective(a: Int64, b: Int64)
    requires IdText(a) == IdText(b)
    ensures a == b
  {
  }

  /**
   * The answer to a read-back statement from a store holding `stored`: the
   * row when the statement selects its id, otherwise no row.
   */
  function SelectRow(stored: Product, s: Db.Stmt): (found: Option<Product>)
    ensures found.Some? ==> found.value == stored
  {
    if s == Db.SelectById(IdText(stored.id)) then Some(stored) else None
  }

  /** The read-back by a path id finds the stored row exactly when the row has that id. */
  lemma SelectFindsNamedRow(stored: Product, key: Int64)
    ensures SelectRow(stored, Db.SelectById(IdText(key))).Some? <==> stored.id == key
  {
    if SelectRow(stored, Db.SelectById(IdText(key))).Some? {
      assert Db.SelectById(IdText(key)).args[0] == Db.SelectById(IdText(stored.id)).args[0];
      IdTextInjective(key, stored.id);
    }
  }

  /** The patch writes the id column only with a non-zero body id. */
  lemma PatchedId(row: Product, body: ProductResponse)
    ensures ApplyAll(row, PatchAssignments(body)).id == if body.id != 0 then body.id else row.id
  {
    PatchEffect(row, body);
    assert ToJSON(ApplyAll(row, PatchAssignments(body))).id == ApplyAll(row, PatchAssignments(body)).id;
  }

  /**
   * A patch of an existing row that keeps its id succeeds and hands back
   * the old row overlaid with the body: the read-back by the path id finds
   * the row as the UPDATE left it.
   */
  lemma PatchProductReturnsOverlay(body: ProductResponse, row: Product)
    requires Patch.BodyClauses(body) != []
    requires body.id == 0 || body.id == row.id
    ensures var id := IdText(row.id);
            var after := ApplyAll(row, PatchAssignments(body));
            var run := Db.PatchProduct(id, body, Db.Env(None, None, SelectRow(after, Db.SelectById(id)), None));
            && run.ops[2] == Db.QueryRow(Db.SelectById(id))
            && run.outcome == Db.Returned(after, None)
            && ToJSON(run.outcome.value) == Overlay(ToJSON(row), body)
  {
    PatchEffect(row, body);
    PatchedId(row, body);
  }

  /**
   * A patch whose body carries a different non-zero id moves the row away
   * from the path id, so the read-back finds nothing and the caller gets
   * the zero product with no error, although the row was changed.
   */
  lemma PatchMovingIdReturnsZeroProduct(body: ProductResponse, row: Product)
    requires body.id != 0 && body.id != row.id
    ensures var id := IdText(row.id);
            var after := ApplyAll(row, PatchAssignments(body));
            var run := Db.PatchProduct(id, body, Db.Env(None, None, SelectRow(after, Db.SelectById(id)), None));
            && after.id == body.id
            && run.ops[2] == Db.QueryRow(Db.SelectById(id))
            && run.outcome == Db.Returned(ZeroProduct, None)
  {
    Db.EmptyBody(body);
    PatchedId(row, body);
    SelectFindsNamedRow(ApplyAll(row, PatchAssignments(body)), row.id);
  }

  /**
   * The store's reading of an executed statement on `stored`: the merge
   * statement aimed at this row's id, whose `$1` text `decode` reads as a
   * JSON object, merges that object into the stores; any other statement
   * leaves the row as it was. JSON parsing itself is the parameter.
   */
  function ExecMerge(stored: Product, s: Db.Stmt, decode: string -> Option<Stores>): (after: Product)
    ensures after == stored.(stores := after.stores)
    ensures (&& s.query == Db.MergeQuery
             && |s.args| == 2
             && s.args[0].Bound? && s.args[0].v.StringVal?
             && decode(s.args[0].v.s).Some?
             && s.args[1] == Db.Bound(StringVal(IdText(stored.id))))
            ==> after == MergeStores(stored, decode(s.args[0].v.s).value)
  {
    if && s.query == Db.MergeQuery
       && |s.args| == 2
       && s.args[0].Bound? && s.args[0].v.StringVal?
       && decode(s.args[0].v.s).Some?
       && s.args[1] == Db.Bound(StringVal(IdText(stored.id)))
    then MergeStores(stored, decode(s.args[0].v.s).value)
    else stored
  }

  /**
   * The merge run against a store holding the row: the statement it
   * executes merges the decoded `jsonStore` into the row's stores, and the
   * read-back by the path id hands that row back.
   */
  lemma PatchStoreReturnsMerged(jsonStore: string, decode: string -> Option<Stores>, row: Product)
    requires decode(jsonStore).Some?
    ensures var id := IdText(row.id);
            var merge := Db.Stmt(Db.MergeQuery, [Db.Bound(StringVal(jsonStore)), Db.Bound(StringVal(id))]);
            var after := ExecMerge(row, merge, decode);
            var run := Db.PatchStore(id, jsonStore, Db.Env(None, None, SelectRow(after, Db.SelectById(id)), None));
            && run.ops[1] == Db.Exec(merge)
            && run.outcome == Db.Returned(MergeStores(row, decode(jsonStore).value), None)
  {
  }
}

=== FILE: text.dfy ===
/**
 * The pieces of Go's `strings` and `fmt` packages the statement builder
 * relies on: splitting on a separator, joining with one, and `%d`
 * rendering of a non-negative integer.
 */
module Text {

  /** `strings.Split(s, string(sep))`: the runs between separators, always at least one. */
  function Split(s: string, sep: char): (parts: seq<string>)
    ensures |parts| >= 1
    ensures forall k :: 0 <= k < |parts| ==> sep !in parts[k]
    ensures parts[0] <= s
    ensures parts[0] == s || s[|parts[0]|] == sep
    ensures sep !in s ==> parts == [s]
    decreases |s|
  {
    if |s| == 0 then [""]
    else
      var rest := Split(s[1..], sep);
      if s[0] == sep then [""] + rest
      else
        var parts := [[s[0]] + rest[0]] + rest[1..];
        assert s == [s[0]] + s[1..];
        assert forall k :: 1 <= k < |parts| ==> parts[k] == rest[k];
        assert rest[0] != s[1..] ==> s[|parts[0]|] == s[1..][|rest[0]|];
        parts
  }

  /** `strings.Join(parts, sep)`. */
  function Join(parts: seq<string>, sep: string): (joined: string)
  {
    if |parts| == 0 then ""
    else if |parts| == 1 then parts[0]
    else parts[0] + sep + Join(parts[1..], sep)
  }

  lemma JoinCons(x: string, xs: seq<string>, sep: string)
    requires |xs| >= 1
    ensures Join([x] + xs, sep) == x + sep + Join(xs, sep)
  {
    assert ([x] + xs)[1..] == xs;
  }

  /** A separator at the front opens an empty first piece. */
  lemma SplitAtSep(t: string, sep: char)
    ensures Split([sep] + t, sep) == [""] + Split(t, sep)
  {
    assert ([sep] + t)[1..] == t;
  }

  /** Any other character at the front belongs to the first piece. */
  lemma SplitAtOther(c: char, t: string, sep: char)
    requires c != sep
    ensures var rest := Split(t, sep);
            Split([c] + t, sep) == [[c] + rest[0]] + rest[1..]
  {
    assert ([c] + t)[1..] == t;
  }

  /** Joining the pieces of a split with the same separator gives back the original string. */
  lemma {:induction false} JoinSplit(s: string, sep: char)
    ensures Join(Split(s, sep), [sep]) == s
    decreases |s|
  {
    if |s| > 0 {
      var rest := Split(s[1..], sep);
      JoinSplit(s[1..], sep);
      assert s == [s[0]] + s[1..];
      if s[0] == sep {
        SplitAtSep(s[1..], sep);
        JoinCons("", rest, [sep]);
      } else {
        SplitAtOther(s[0], s[1..], sep);
        if |rest| > 1 {
          JoinCons([s[0]] + rest[0], rest[1..], [sep]);
          JoinCons(rest[0], rest[1..], [sep]);
          assert [rest[0]] + rest[1..] == rest;
        }
      }
    }
  }

  /** A separator-free piece followed by the separator splits off as the first piece. */
  lemma {:induction false} SplitAppend(a: string, t: string, sep: char)
    requires sep !in a
    ensures Split(a + [sep] + t, sep) == [a] + Split(t, sep)
    decreases |a|
  {
    if |a| == 0 {
      assert a + [sep] + t == [sep] + t;
      SplitAtSep(t, sep);
    } else {
      var tail := a[1..] + [sep] + t;
      assert a + [sep] + t == [a[0]] + tail;
      SplitAppend(a[1..], t, sep);
      SplitAtOther(a[0], tail, sep);
      assert [a[0]] + a[1..] == a;
    }
  }

  /** Splitting a join of separator-free pieces gives back the pieces. */
  lemma {:induction false} SplitJoin(parts: seq<string>, sep: char)
    requires |parts| >= 1
    requires forall k :: 0 <= k < |parts| ==> sep !in parts[k]
    ensures Split(Join(parts, [sep]), sep) == parts
    decreases |parts|
  {
    if |parts| > 1 {
      var rest := parts[1..];
      assert forall k :: 0 <= k < |rest| ==> rest[k] == parts[k + 1];
      SplitJoin(rest, sep);
      JoinCons(parts[0], rest, [sep]);
      assert [parts[0]] + rest == parts;
      SplitAppend(parts[0], Join(rest, [sep]), sep);
    }
  }

  /** Every piece with a leading space. */
  function Spaced(xs: seq<string>): (ys: seq<string>)
    ensures |ys| == |xs|
    ensures forall k :: 0 <= k < |xs| ==> ys[k] == " " + xs[k]
  {
    seq(|xs|, k requires 0 <= k < |xs| => " " + xs[k])
  }

  /** A space before a `", "`-join is the `','`-join of the spaced pieces. */
  lemma {:induction false} JoinSpaced(xs: seq<string>)
    requires |xs| >= 1
    ensures " " + Join(xs, ", ") == Join(Spaced(xs), [','])
    decreases |xs|
  {
    if |xs| > 1 {
      JoinSpaced(xs[1..]);
      JoinCons(xs[0], xs[1..], ", ");
      assert Spaced(xs) == [" " + xs[0]] + Spaced(xs[1..]);
      JoinCons(" " + xs[0], Spaced(xs[1..]), [',']);
    }
  }

  /** Joining with `", "` is joining with `','` after spacing every piece but the first. */
  lemma JoinCommaSpace(xs: seq<string>)
    requires |xs| >= 1
    ensures Join(xs, ", ") == Join([xs[0]] + Spaced(xs[1..]), [','])
  {
    if |xs| > 1 {
      JoinCommaSpaceCons(xs[0], xs[1..]);
      assert [xs[0]] + xs[1..] == xs;
    }
  }

  lemma JoinCommaSpaceCons(x: string, rest: seq<string>)
    requires |rest| >= 1
    ensures Join([x] + rest, ", ") == Join([x] + Spaced(rest), [','])
  {
    JoinCons(x, rest, ", ");
    JoinCons(x, Spaced(rest), [',']);
    JoinSpaced(rest);
    assert ", " == [','] + " ";
    Regroup(x, [','], " ", Join(rest, ", "));
  }

  lemma Regroup(a: string, b: string, c: string, d: string)
    ensures a + (b + c) + d == a + b + (c + d)
  {
  }

  predicate IsDigit(c: char) {
    '0' <= c <= '9'
  }

  predicate AllDigits(s: string) {
    forall k :: 0 <= k < |s| ==> IsDigit(s[k])
  }

  function DigitChar(d: nat): (c: char)
    requires d < 10
    ensures IsDigit(c)
  {
    (48 + d) as char
  }

  function DigitValue(c: char): (d: nat)
    requires IsDigit(c)
    ensures d < 10
  {
    c as int - 48
  }

  /** `fmt.Sprintf("%d", n)` for a non-negative `n`: decimal digits, no leading zero. */
  function Decimal(n: nat): (s: string)
    ensures |s| >= 1
    ensures AllDigits(s)
    ensures |s| > 1 ==> s[0] != '0'
    decreases n
  {
    if n < 10 then [DigitChar(n)] else Decimal(n / 10) + [DigitChar(n % 10)]
  }

  /** Reading a string of decimal digits back as a number. */
  function DecimalValue(s: string): nat
    requires AllDigits(s)
  {
    if |s| == 0 then 0 else 10 * DecimalValue(s[..|s| - 1]) + DigitValue(s[|s| - 1])
  }

  /** The rendering of a number reads back as that number. */
  lemma {:induction false} DecimalRoundTrip(n: nat)
    ensures DecimalValue(Decimal(n)) == n
    decreases n
  {
    var s := Decimal(n);
    if n < 10 {
    } else {
      DecimalRoundTrip(n / 10);
      assert s[..|s| - 1] == Decimal(n / 10);
    }
  }

  /** Different numbers render differently. */
  lemma DecimalInjective(a: nat, b: nat)
    requires a != b
    ensures Decimal(a) != Decimal(b)
  {
    DecimalRoundTrip(a);
    DecimalRoundTrip(b);
  }
}

=== FILE: utils.dfy ===
/** `utils.FieldToColumnName`: the column a struct field is stored in. */
module Utils {
  import opened Models
  import Text

  /**
   * An untagged field is stored under its Go name; a tagged one under the
   * tag's first comma-separated part, which may be empty.
   */
  function FieldToColumnName(field: StructField): (column: string)
    ensures field.jsonTag == "" ==> column == field.name
    ensures field.jsonTag != "" ==> column <= field.jsonTag && ',' !in column
    ensures field.jsonTag != "" ==> column == field.jsonTag || field.jsonTag[|column|] == ','
  {
    if field.jsonTag == "" then field.name else Text.Split(field.jsonTag, ',')[0]
  }

  /** The text before a tag's first comma (the whole tag when there is none). */
  predicate IsNameOfTag(tag: string, column: string) {
    && column <= tag
    && ',' !in column
    && (column == tag || tag[|column|] == ',')
  }

  /** At most one string is the part of a tag before its first comma. */
  lemma NameOfTagUnique(tag: string, a: string, b: string)
    requires IsNameOfTag(tag, a) && IsNameOfTag(tag, b)
    ensures a == b
  {
  }

  /** For a tagged field the column is exactly the tag's first part: nothing else qualifies. */
  lemma ColumnIsTagName(field: StructField, column: string)
    requires field.jsonTag != ""
    ensures IsNameOfTag(field.jsonTag, column) <==> column == FieldToColumnName(field)
  {
    if IsNameOfTag(field.jsonTag, column) {
      NameOfTagUnique(field.jsonTag, column, FieldToColumnName(field));
    }
  }

  /** A comma-free tag names its own column, so `"name"` gives `name`. */
  lemma PlainTagIsColumn(field: StructField)
    requires field.jsonTag != "" && ',' !in field.jsonTag
    ensures FieldToColumnName(field) == field.jsonTag
  {
  }

  /** A tag with an empty name part, such as `",omitempty"`, gives the empty column, not the Go name. */
  lemma LeadingCommaGivesEmptyColumn(field: StructField)
    requires |field.jsonTag| > 0 && field.jsonTag[0] == ','
    ensures FieldToColumnName(field) == ""
  {
  }

  /** The columns of `ProductResponse`, in declaration order. */
  lemma ResponseColumns()
    ensures forall k :: 0 <= k < |ResponseFields| ==> ',' !in ResponseFields[k].jsonTag
    ensures FieldToColumnName(ResponseFields[0]) == "id"
    ensures FieldToColumnName(ResponseFields[1]) == "name"
    ensures FieldToColumnName(ResponseFields[2]) == "quantity"
    ensures FieldToColumnName(ResponseFields[3]) == "unit"
    ensures FieldToColumnName(ResponseFields[4]) == "stores"
  {
    forall k | 0 <= k < |ResponseFields| ensures FieldToColumnName(ResponseFields[k]) == ResponseFields[k].jsonTag {
      PlainTagIsColumn(ResponseFields[k]);
    }
  }
}

=== FILE: wrappers.dfy ===
/** Presence of a value: the model's stand-in for a Go pointer that may be nil. */
module Wrappers {

  datatype Option<+T> = None | Some(value: T) {

    /** The wrapped value, or `default` when absent. */
    function GetOr(default: T): T {
      match this
      case Some(v) => v
      case None => default
    }
  }
}
